=== FILE: README.md ===
# Complaint portal: authentication, role gates and record creation

A model of the request-handling core of a small complaint-tracking web portal.
Users register with a name, e-mail, username, password and role; they log in
with username and password and land on a page chosen by their role (`admin`,
`jeng` for junior engineer, anything else for a plain user). Anyone may file a
complaint, and a complaint is handed to an engineer by recording a
complaint-to-engineer mapping.

The model is a state machine. The state (`Routes.State`) holds

- the user collection, a sequence of saved user documents in insertion order
  (`UserStore.Store`), each with an id, name, e-mail, username, password digest and role;
- the complaints and the complaint mappings, both append-only sequences;
- the one client's session, which is anonymous or holds a user id (`Auth.Session`).

Each route handler is a pure transition `Routes.Handle(state, request, isEmail)`
returning the next state and a response: a redirect (with its flash message), a
rendered view (with the data handed to it, including validation errors), or a
server error. Before every route the session is restored the way
`passport.session()` does it: the user is fetched afresh by id, and an id with
no record ends the session.

Modules, in dependency order:

- `Wrappers` (wrappers.dfy): `Option` and `Result`. A `Result` carries a value or an
  error and never both, which is how the model states the error-first callback
  convention of the user model (`callback(err, null)` or `callback(null, value)`).
- `Crypt` (crypt.dfy): the password hash. bcrypt is reduced to three facts: a
  digest is never empty (the `ensures` of `Hash`, which lets the saved digest pass
  the schema's `required` check), `Compare(p, Hash(q)) <==> p == q`, and a digest
  is never its plaintext. `Hash` itself is a stand-in (a fixed tag followed by
  the password) chosen so that these facts can be proved.
- `UserStore` (user_store.dfy): the user schema (five required fields, unique
  `email` and `username`), `registerUser`, `getUserByUsername`, `getUserById`,
  `comparePassword`, and the list of engineers.
- `Validation` (validation.dfy): the express-validator chains of the three POST
  forms. Each failing chain is reported as a `Problem`, whose `Message` is the
  text the chain was declared with. The e-mail grammar `isEmail` is a parameter
  and stays uninterpreted.
- `Auth` (auth.dfy): the local strategy's login decision, session restore,
  `req.user`, and the role-based landing page.
- `Routes` (routes.dfy): one function per route and the dispatcher `Handle`.
- `RouteProperties` (route_properties.dfy): properties of whole requests.
- `Traces` (traces.dfy): runs of several requests.

In these places the code is looser than one might expect, and the model keeps it so:

- The two login failures carry different messages, "Incorrect username." and
  "Wrong password", so a client can tell an unknown username from a wrong password.
- `POST /assign` has no authentication or role gate, and on success it redirects to
  `/admin/admin`, a path no route of this router serves.
- `GET /jeng` checks only that someone is logged in, not the role.
- `POST /registerComplaint` validates only `contact` and `desc`; `name` and `email`
  are stored as given, empty or not.
- `registerUser` hashes before saving, so the password's own `required` check can
  never fail there: an empty-string password is stored as the digest of the
  empty string. Only the route's validator keeps empty passwords out.
- passport-local refuses an empty username or password with "Missing
  credentials" before the verify callback runs; the model includes that branch.
- `GET /admin` asks `User.getEngineer` for the engineer list, but models/user.js
  defines no such function, so an admin's request ends in an error and the
  dashboard never renders. `Routes.Admin` models this; `Routes.AdminIntended` is
  the dashboard the route evidently means to show (see "## Findings").

## Model

| member | source | states |
|---|---|---|
| Crypt.Hash | models/user.js:33-34 | a digest is never empty |
| Crypt.CompareHash | models/user.js:61-68 | comparing `p` against the digest of `q` succeeds exactly when `p == q` |
| Crypt.HashNotPlaintext | models/user.js:31-36 | the digest saved in place of a password never equals that password |
| UserStore.MissingPaths | models/user.js:4-27 | the failing `required` paths: empty exactly when all five fields are present, and each path listed exactly when its field is empty, and no other path listed |
| UserStore.FreshId | routes/index.js:157-163 | a new document's id is larger than, hence different from, every saved id |
| UserStore.Save | models/user.js:4-35 | a save succeeds exactly when every required field is present and no unique key (id, email, username) is taken; success appends the one document, a missing field fails with a validation error |
| UserStore.RegisterUser | models/user.js:31-40 | registration succeeds exactly when name, email, username and role are non-empty and email and username are free; the saved record carries the form's fields, the digest of the password (never the plaintext), a fresh id, and is appended; missing fields give a validation error |
| UserStore.GetUserByUsername | models/user.js:42-50 | returns a stored record with exactly that username, or nothing exactly when no record has it |
| UserStore.GetUserById | models/user.js:52-59 | returns a stored record with exactly that id, or nothing exactly when no record has it |
| UserStore.Engineers | routes/index.js:47-51 | the engineer list the dashboard evidently needs: exactly the stored users whose role is `"jeng"` (the corrected half of the finding below; `User.getEngineer`, called here, is not defined) |
| UserStore.UsernameLookupUnique | models/user.js:42-50 | with unique usernames the lookup returns the one record holding the username |
| UserStore.IdLookupUnique | models/user.js:52-59 | with unique ids the lookup returns the one record holding the id |
| UserStore.SavePreservesValid | models/user.js:9-18 | a successful save keeps ids, emails and usernames unique and every record complete |
| UserStore.RegisterPreservesValid | models/user.js:31-40 | a successful registration keeps the collection valid |
| UserStore.ComparePasswordAcceptsOnlyOwn | models/user.js:61-68 | `comparePassword` against the digest made from `q` accepts the candidate `p` exactly when `p` is `q` |
| UserStore.StoredPasswordMatches | models/user.js:61-68 | after registration, `comparePassword` against the stored digest accepts the registered password and no other |
| UserStore.DuplicateRegistrationRejected | models/user.js:9-18 | a second registration reusing a username or email fails, with a duplicate-key error when its other required fields are present, and the first record stays the only one holding that key |
| Validation.RegisterErrors | routes/index.js:141-155 | no errors exactly when every chain passes; an error is reported exactly for each failing chain: empty name, email, username, password or role, an email `isEmail` rejects, a `password2` different from `password` |
| Validation.AssignErrors | routes/index.js:70-79 | no errors exactly when `complaintID` and `engineerName` are non-empty; each message exactly for its empty field, and no other message |
| Validation.ComplaintErrors | routes/index.js:111-120 | no errors exactly when `contact` and `desc` are non-empty; each message exactly for its empty field, and no other message |
| Auth.LocalStrategy | routes/index.js:173-196 | "Missing credentials" exactly for an empty username or password; "Incorrect username." exactly when no record has the username; an accepted user is a stored record with that username whose digest matches the password; no other message |
| Auth.LoginDecision | routes/index.js:173-196 | with unique usernames, the record holding the username decides: a matching digest logs in that record, otherwise "Wrong password" |
| Auth.Restore | routes/index.js:209-213 | a restored session still holds its id exactly when a record with that id exists; otherwise it is anonymous |
| Auth.CurrentUser | routes/index.js:209-213 | the request's user exists exactly when the session holds an id some record has, and is a stored record with that id |
| Auth.LoginRedirect | routes/index.js:224-230 | `"admin"` lands on `/admin`, `"jeng"` on `/jeng`, every other role on `/` |
| Auth.RoleChangeSeenOnNextRequest | routes/index.js:198-213 | since the session holds only the id, a role changed in the store is the role the next request sees |
| Routes.Denied | routes/index.js:235-242 | the gate's refusal changes nothing and redirects to `/login` with an error |
| Routes.ProtectedPage | routes/index.js:94-108 | `/`, `/jeng` and `/complaint` render exactly when the session has a user, of any role, and change nothing |
| Routes.Logout | routes/index.js:26-34 | a logged-in session ends anonymous and goes to `/login`; the stores are untouched |
| Routes.Admin | routes/index.js:37-67 | as written: never renders; for the role `"admin"` the request ends in an error, another user is sent to `/` with an error, a session without a user is refused by the gate; nothing changes |
| Routes.AdminIntended | routes/index.js:37-67 | as intended: the dashboard, with all complaints and exactly the `"jeng"` users, renders exactly for the role `"admin"`; another user is sent to `/` with an error; nothing changes |
| Routes.Assign | routes/index.js:70-91 | a form with both fields non-empty whose write succeeds appends exactly one mapping; a failed write is a server error; otherwise the state is unchanged; empty fields re-render the admin form with errors and no data |
| Routes.RegisterComplaint | routes/index.js:111-138 | non-empty `contact` and `desc` with a successful write append exactly one complaint and go to `/`; otherwise nothing is added; empty fields re-render the form with errors; a failed write is a server error |
| Routes.Register | routes/index.js:141-170 | a form failing validation re-renders with errors and adds nothing; a valid form hands one candidate to `registerUser`, whose success sends the browser to `/login` and whose failure adds nothing; at most one user is added |
| Routes.Login | routes/index.js:216-232 | login never changes the stores; acceptance stores only the user's id in the session and redirects by role; refusal changes nothing and returns to `/login` with the strategy's message under passport's `error` flash key |
| Routes.Handle | routes/index.js:10-232 | only registration adds users (at most one, after the existing ones); a complaint is appended exactly for a submission with `contact` and `desc` whose write succeeds, a mapping exactly for an assignment with both fields whose write succeeds; nothing else touches those collections |
| Traces.Run | routes/index.js:10-232 | over any run of requests the users, complaints and mappings only grow by appending |
| Traces.RunAppendsMappings | routes/index.js:81-90 | after any run the mappings are the old ones followed by one record per accepted assignment, in request order, duplicates kept |
| Traces.RunAppendsComplaints | routes/index.js:122-133 | after any run the complaints are the old ones followed by one record per accepted submission, in request order |
| Traces.NoAcceptedAssignKeepsMappings | routes/index.js:70-91 | a run in which no assignment has both fields and a successful write leaves the mappings exactly as they were |
| Traces.NoAcceptedComplaintKeepsComplaints | routes/index.js:111-138 | a run in which no submission has `contact`, `desc` and a successful write leaves the complaints exactly as they were |
| Traces.RunKeepsConsistent | models/user.js:4-27 | no run of requests breaks the unique keys or the required fields, or leaves the session naming a user who is not stored |
| Traces.OnlyRegistrationAddsUsers | routes/index.js:157-169 | a run with no registration request leaves the users exactly as they were |
| RouteProperties.AnonymousSentToLogin | routes/index.js:235-242 | any route behind the gate sends a session without a user to `/login` with the gate's error, changing nothing but a dangling session id |
| RouteProperties.AuthenticatedPages | routes/index.js:94-101 | `/`, `/jeng` and `/complaint` render exactly for a session with a user, whatever the role |
| RouteProperties.RestoreKeepsUser | routes/index.js:209-213 | restoring the session never changes who the request's user is; a session without a user comes out anonymous |
| RouteProperties.AdminByRole | routes/index.js:37-67 | `/admin` never renders: a user whose role is `"admin"` gets an error, other users are redirected to `/` with an error, and the stores are untouched |
| RouteProperties.AdminAsWrittenFails | routes/index.js:47-51 | for every admin session the handler as written fails where the intended one renders the stored complaints |
| RouteProperties.OpenRoutesIgnoreSession | routes/index.js:70-91 | `/assign`, `/registerComplaint` and `/register` answer and write the same whatever the session holds |
| RouteProperties.AssignTwiceKeepsBoth | routes/index.js:81-90 | assigning one complaint twice leaves both mappings, in order |
| RouteProperties.EmptyComplaintAddsNothing | routes/index.js:111-120 | an empty `contact` or `desc` adds no record and re-renders the complaint form |
| RouteProperties.InvalidRegistrationAddsNothing | routes/index.js:141-155 | a form failing a validator adds no user and re-renders the register form with a non-empty error list |
| RouteProperties.ValidRegistrationAddsOne | routes/index.js:157-169 | a valid form with a free username and email adds exactly one user after the existing ones, holding the form's fields and a digest that accepts exactly the registered password, and goes to `/login` |
| RouteProperties.DuplicateRegistrationAddsNothing | models/user.js:9-18 | a form whose username or email is taken adds no user |
| RouteProperties.LoginOutcomes | routes/index.js:173-196 | on a valid store: an unknown username returns to `/login` with "Incorrect username."; a wrong password with "Wrong password"; a right one stores that record's id and redirects by its role; the users are untouched |
| RouteProperties.LoginLandsByRole | routes/index.js:224-230 | a successful login's redirect is `/admin`, `/jeng` or `/` according to the role string alone, without a flash |
| RouteProperties.RoleChangeDecidesAdmin | routes/index.js:198-213 | for a session holding an id, a role changed in the store decides the next `/admin` request: an error when the new role is `"admin"`, a redirect to `/` otherwise, and the intended dashboard exactly when it is `"admin"` |
| RouteProperties.LogoutEndsSession | routes/index.js:26-34 | logging out leaves no user in the session and redirects to `/login` |
| RouteProperties.HandleKeepsConsistent | models/user.js:4-27 | every request keeps the users unique and complete and leaves the session naming a stored user or nobody |
| RouteProperties.RegisterThenLogin | routes/index.js:141-232 | registering `a1`/`p` with role `"user"` succeeds, logging in with `p` lands on `/`, with `q` returns to `/login` with "Wrong password" |

## Findings

| source | as written | input that shows it | evidently intended | confidence | as-written member | corrected member |
|---|---|---|---|---|---|---|
| routes/index.js:47 | `GET /admin` calls `User.getEngineer`, which models/user.js does not define, so the handler throws before `res.render` | a session of a user whose role is `"admin"` requesting `GET /admin` (lemma `RouteProperties.AdminAsWrittenFails`) | render the dashboard with the complaints and the users whose role is `"jeng"` | high, not executed | `Routes.Admin` | `Routes.AdminIntended` |

The router itself (`Routes.Handle`) keeps the handler as written, because that is
what the portal does; the intended dashboard and its access rule are proved of
`Routes.AdminIntended`.

## Left out

- Express, Handlebars, static files, body parsing and the session cookie settings
  (secret, expiry after `maxAge`) in app.js; the MongoDB connection in db.js. A
  session that expires is not modelled; logout, and a session whose id no stored record has, are the only ways the model
  ends one.
- Salt generation and the cost factor of bcrypt: `Crypt.Hash` is deterministic and
  only its comparison rule is used.
- The grammar of `isEmail`: it is the parameter `isEmail` of `Handle`.
- Store and framework errors that the code passes to `next(err)` or `done(err)`:
  lookups, password comparison, `req.logout`, `req.session.save` and database I/O
  cannot fail in the model.
- The `throw err` paths after `registerMapping` and `registerUser` and the 500 answer
  after `registerComplaint`: each is the response `ServerError` with no record added.
- The Complaint and ComplaintMapping models are not part of this model: their
  records are the fields the handlers pass, and whether their write succeeds is
  the request's `stored` flag.
- UserStore.Engineers: no source code computes this list; `User.getEngineer`, which
  the admin route calls, is not defined in models/user.js. The list is the
  corrected half of the finding below and only `Routes.AdminIntended` uses it.
- Crypt.Hash: a real bcrypt digest is always 60 characters and salted, so the same
  password hashes differently each time; the stand-in is neither.
- Crypt.CompareHash: bcryptjs compares only the first 72 bytes of a password, so two
  passwords that agree on those bytes match each other; the model's `p == q` is
  stricter than bcrypt for longer passwords.
- Auth.LocalStrategy: request fields are modelled as strings from the body only.
  With `express.json()` mounted, a client can send an object such as
  `{"$ne": ""}` as the username; `findOne` then treats it as a query operator and
  may return a record whose username is not the value sent. Such object values,
  and the query-string, cookie and header locations that `check()` and
  passport-local also read, are not modelled.
- An absent body field and an empty one are the same empty string. The `notEmpty`
  chains and the schema's `required` treat them alike, but the `password2` chain
  (routes/index.js:147) compares with `===` and so tells them apart: with one of
  `password` and `password2` absent and the other empty, the code also reports
  "Passwords do not match", while `RegisterErrors` reports only the missing
  password. The form is rejected either way; only that one extra message, which can
  appear only when `password` is already missing or empty, is not modelled.
- UserStore.RegisterUser: an absent password is modelled as `""`, which
  `bcrypt.hash` hashes like any string, so `RegisterUser` succeeds. With the field
  absent, `newUser.password` is `undefined`, `bcrypt.hash` rejects it
  (models/user.js:34) and `registerUser` fails through its callback
  (models/user.js:37-38). That failure is not modelled. The route's `notEmpty`
  check on `password` rejects both cases before `registerUser` is reached, so
  `Routes.Register` and everything built on it are unaffected.
- View templates, the flash middleware's copying of the three keys into the page, console logging, and the
  `req.session.user` value passed to the complaint view (never set by the code).
- Concurrency: requests are handled one at a time; two concurrent assignments of a
  complaint are the sequence covered by `AssignTwiceKeepsBoth`.
- No route changes a user's role; the role-change properties consider a change
  made to the store outside the routes.

=== FILE: auth.dfy ===
/** passport's part: the local strategy's verify callback, the session that
    keeps only a user id, the per-request re-fetch of that user, the
    `ensureAuthenticated` gate and the role-based landing page. */
module Auth {
  import opened Wrappers
  import opened UserStore

  const IncorrectUsername: string := "Incorrect username."
  const WrongPassword: string := "Wrong password"
  /** passport-local's own refusal when the username or password is absent,
      given before the verify callback runs. */
  const MissingCredentials: string := "Missing credentials"

  /** What the session cookie's server-side record holds for passport. */
  datatype Session = Anonymous | Holds(id: UserId)

  /** The outcome of the verify callback: `done(null, user)` or `done(null, false, {message})`. */
  datatype Verdict = Accept(user: User) | Reject(message: string)

  /** The LocalStrategy: look the username up, then compare the password with the stored digest. */
  function LocalStrategy(users: Store, username: string, password: string): (v: Verdict)
    ensures v == Reject(MissingCredentials) <==> username == "" || password == ""
    ensures v == Reject(IncorrectUsername) <==>
      username != "" && password != "" && forall i :: 0 <= i < |users| ==> users[i].username != username
    ensures v.Accept? ==>
      v.user in users && v.user.username == username && ComparePassword(password, v.user.password)
    ensures v.Reject? ==> v.message in {MissingCredentials, IncorrectUsername, WrongPassword}
  {
    if username == "" || password == "" then Reject(MissingCredentials)
    else match GetUserByUsername(users, username)
      case None => Reject(IncorrectUsername)
      case Some(u) => if ComparePassword(password, u.password) then Accept(u) else Reject(WrongPassword)
  }

  /** `deserializeUser` run by `passport.session()` on every request: the
      session's id is looked up afresh; an id with no record ends the session. */
  function Restore(users: Store, s: Session): (s': Session)
    ensures s'.Holds? ==> s' == s && GetUserById(users, s'.id).Some?
    ensures s.Holds? && GetUserById(users, s.id).Some? ==> s' == s
  {
    match s
    case Anonymous => Anonymous
    case Holds(id) => if GetUserById(users, id).Some? then s else Anonymous
  }

  /** `req.user`: the current store record for the session's id, or nothing. */
  function CurrentUser(users: Store, s: Session): (r: Option<User>)
    ensures r.Some? <==> s.Holds? && exists i :: 0 <= i < |users| && users[i].id == s.id
    ensures r.Some? ==> r.value in users && r.value.id == s.id
  {
    match s
    case Anonymous => None
    case Holds(id) => GetUserById(users, id)
  }

  /** The landing page after a successful login, chosen by exact role string. */
  function LoginRedirect(role: string): (target: string)
    ensures target == "/admin" <==> role == "admin"
    ensures target == "/jeng" <==> role == "jeng"
    ensures target == "/" <==> role != "admin" && role != "jeng"
  {
    if role == "admin" then "/admin"
    else if role == "jeng" then "/jeng"
    else "/"
  }

  /** With unique usernames the decision is fixed by the one record holding the
      username: its digest matching the password accepts that record, otherwise
      "Wrong password". */
  lemma LoginDecision(users: Store, username: string, password: string, i: nat)
    requires Unique(users)
    requires i < |users| && users[i].username == username
    requires username != "" && password != ""
    ensures ComparePassword(password, users[i].password) ==> LocalStrategy(users, username, password) == Accept(users[i])
    ensures !ComparePassword(password, users[i].password) ==> LocalStrategy(users, username, password) == Reject(WrongPassword)
  {
  }

  /** The session stores only the id, so an update of the stored record (here its
      role) is what the next request sees. */
  lemma RoleChangeSeenOnNextRequest(users: Store, i: nat, role: string)
    requires Unique(users)
    requires i < |users|
    ensures var users' := users[i := users[i].(role := role)];
      CurrentUser(users', Holds(users[i].id)) == Some(users'[i]) && users'[i].role == role
  {
  }
}

=== FILE: crypt.dfy ===
/** The password hash used by the user model (bcryptjs).

    The model uses three facts of bcrypt: a digest is never empty,
    `compare(p, hash(q))` holds exactly when `p == q`, and a digest is never the
    plaintext it was made from. Salts, the cost factor, the fixed digest length
    and the 72-byte input limit are not modelled. `Hash` below is an injective
    stand-in that exists so that these facts can be proved. */
module Crypt {

  /** A bcrypt version tag (`$2a$`; other versions write `$2b$` or `$2y$`). */
  const Tag: string := "$2a$"

  /** `bcrypt.hash(password, salt)` */
  function Hash(password: string): (digest: string)
    ensures digest != ""
  {
    Tag + password
  }

  /** `bcrypt.compare(candidate, digest)`: does `digest` come from `candidate`? */
  predicate Compare(candidate: string, digest: string)
  {
    digest == Hash(candidate)
  }

  /** Two passwords with the same digest are the same password. */
  lemma HashInjective(p: string, q: string)
    ensures Hash(p) == Hash(q) ==> p == q
  {
    if Hash(p) == Hash(q) {
      assert p == Hash(p)[|Tag|..] == Hash(q)[|Tag|..] == q;
    }
  }

  /** The verify rule: a candidate matches the digest of `q` iff it is `q`. */
  lemma CompareHash(p: string, q: string)
    ensures Compare(p, Hash(q)) <==> p == q
  {
    HashInjective(p, q);
  }

  /** A digest never equals the plaintext it was computed from. */
  lemma HashNotPlaintext(p: string)
    ensures Hash(p) != p
  {
  }
}

=== FILE: route_properties.dfy ===
/** Properties of whole requests: which sessions reach which pages, which
    inputs create records, where a login lands, and the invariants every
    request keeps. */
module RouteProperties {
  import opened Wrappers
  import opened UserStore
  import opened Validation
  import opened Auth
  import opened Routes
  import Crypt

  /** Every saved user satisfies the schema, and a session names a saved user or nobody. */
  ghost predicate Consistent(st: State)
  {
    Valid(st.users) && (st.session.Holds? ==> GetUserById(st.users, st.session.id).Some?)
  }

  /** `passport.session()` never changes who `req.user` is; it only drops a dangling id. */
  lemma RestoreKeepsUser(st: State)
    ensures UserOf(st.(session := Restore(st.users, st.session))) == UserOf(st)
    ensures UserOf(st).None? ==> Restore(st.users, st.session) == Anonymous
  {
  }

  /** A protected route sends a session without a user to `/login` with an error
      and changes nothing but dropping a dangling session id. */
  lemma AnonymousSentToLogin(st: State, req: Request, isEmail: string -> bool)
    requires Protected(req)
    requires UserOf(st).None?
    ensures Handle(st, req, isEmail) == Step(st.(session := Anonymous), Redirect("/login", ErrorMsg(NotAuthenticated)))
  {
  }

  /** `/`, `/jeng` and `/complaint` render for every logged-in user whatever the role. */
  lemma AuthenticatedPages(st: State, req: Request, isEmail: string -> bool)
    requires req.GetHome? || req.GetJeng? || req.GetComplaint?
    ensures Handle(st, req, isEmail).response.Render? <==> UserOf(st).Some?
    ensures Handle(st, req, isEmail).state.users == st.users
  {
  }

  /** `/admin` as written never renders: a user with the role `"admin"` gets an
      error, any other logged-in user is sent to `/`, and nothing changes. */
  lemma AdminByRole(st: State, isEmail: string -> bool)
    ensures !Handle(st, GetAdmin, isEmail).response.Render?
    ensures Handle(st, GetAdmin, isEmail).state == st.(session := Restore(st.users, st.session))
    ensures UserOf(st).Some? && UserOf(st).value.role == "admin" ==>
      Handle(st, GetAdmin, isEmail).response == ServerError
    ensures UserOf(st).Some? && UserOf(st).value.role != "admin" ==>
      Handle(st, GetAdmin, isEmail).response == Redirect("/", ErrorMsg(NotAdmin))
  {
    RestoreKeepsUser(st);
  }

  /** The discrepancy at `User.getEngineer`: for every session of an admin the
      handler as written fails where the intended one renders the dashboard. */
  lemma AdminAsWrittenFails(st: State)
    requires UserOf(st).Some? && UserOf(st).value.role == "admin"
    ensures Admin(st).response == ServerError
    ensures AdminIntended(st).response.Render? && AdminIntended(st).response.view.complaints == st.complaints
  {
  }

  /** `/assign`, `/registerComplaint` and `/register` answer the same and write the
      same records whatever the session holds. */
  lemma OpenRoutesIgnoreSession(st: State, a: Session, b: Session, req: Request, isEmail: string -> bool)
    requires req.PostAssign? || req.PostRegisterComplaint? || req.PostRegister?
    ensures var sa := Handle(st.(session := a), req, isEmail);
      var sb := Handle(st.(session := b), req, isEmail);
      && sa.response == sb.response
      && sa.state.users == sb.state.users
      && sa.state.complaints == sb.state.complaints
      && sa.state.mappings == sb.state.mappings
  {
    match req {
      case PostAssign(_, _, _) =>
      case PostRegisterComplaint(_, _, _, _, _) =>
      case PostRegister(f) =>
    }
  }

  /** Assigning the same complaint twice keeps both mappings: nothing is deduplicated. */
  lemma AssignTwiceKeepsBoth(st: State, complaintID: string, first: string, second: string, isEmail: string -> bool)
    requires complaintID != "" && first != "" && second != ""
    ensures var s1 := Handle(st, PostAssign(complaintID, first, true), isEmail);
      var s2 := Handle(s1.state, PostAssign(complaintID, second, true), isEmail);
      s2.state.mappings == st.mappings + [Mapping(complaintID, first), Mapping(complaintID, second)]
  {
  }

  /** A rejected complaint form adds no complaint. */
  lemma EmptyComplaintAddsNothing(st: State, name: string, email: string, contact: string, desc: string, stored: bool, isEmail: string -> bool)
    requires contact == "" || desc == ""
    ensures var s := Handle(st, PostRegisterComplaint(name, email, contact, desc, stored), isEmail);
      s.state.complaints == st.complaints && s.state.mappings == st.mappings && s.state.users == st.users
      && s.response.Render? && s.response.view.ComplaintView?
  {
  }

  /** A registration that fails a validator adds no user and re-renders the form with errors. */
  lemma InvalidRegistrationAddsNothing(st: State, f: RegisterForm, isEmail: string -> bool)
    requires !RegistrationAccepted(f, isEmail)
    ensures var s := Handle(st, PostRegister(f), isEmail);
      s.state.users == st.users && s.response.Render? && s.response.view == RegisterView(RegisterErrors(f, isEmail))
      && |s.response.view.errors| > 0
  {
  }

  /** A valid registration whose username and email are free adds exactly one
      user, holding the digest of the password, and sends the browser to `/login`. */
  lemma ValidRegistrationAddsOne(st: State, f: RegisterForm, isEmail: string -> bool)
    requires RegistrationAccepted(f, isEmail)
    requires forall i :: 0 <= i < |st.users| ==> st.users[i].email != f.email && st.users[i].username != f.username
    ensures var s := Handle(st, PostRegister(f), isEmail);
      && |s.state.users| == |st.users| + 1
      && s.state.users[..|st.users|] == st.users
      && s.response == Redirect("/login", SuccessMsg(Registered))
    ensures var u := Handle(st, PostRegister(f), isEmail).state.users[|st.users|];
      && u.username == f.username && u.email == f.email && u.name == f.name && u.role == f.role
      && u.password != f.password
      && forall p :: ComparePassword(p, u.password) <==> p == f.password
  {
    var c := Candidate(f.name, f.email, f.username, f.password, f.role);
    var saved := RegisterUser(st.users, c).value;
    assert saved.users[|st.users|] == saved.user;
    forall p
      ensures ComparePassword(p, saved.user.password) <==> p == f.password
    {
      StoredPasswordMatches(st.users, c, p);
    }
  }

  /** A registration whose username or email is taken adds no user. */
  lemma DuplicateRegistrationAddsNothing(st: State, f: RegisterForm, isEmail: string -> bool, i: nat)
    requires i < |st.users|
    requires st.users[i].username == f.username || st.users[i].email == f.email
    ensures Handle(st, PostRegister(f), isEmail).state.users == st.users
  {
  }

  /** The login decision on a consistent store: an unknown username, a wrong
      password and a right one, with the store untouched in every case. */
  lemma LoginOutcomes(st: State, username: string, password: string, isEmail: string -> bool)
    requires Valid(st.users)
    requires username != "" && password != ""
    ensures Handle(st, PostLogin(username, password), isEmail).state.users == st.users
    ensures (forall i :: 0 <= i < |st.users| ==> st.users[i].username != username) ==>
      Handle(st, PostLogin(username, password), isEmail).response == Redirect("/login", AuthError(IncorrectUsername))
    ensures forall i :: 0 <= i < |st.users| && st.users[i].username == username ==>
      var s := Handle(st, PostLogin(username, password), isEmail);
      && (ComparePassword(password, st.users[i].password) ==>
            s.state.session == Holds(st.users[i].id) && s.response == Redirect(LoginRedirect(st.users[i].role), NoFlash))
      && (!ComparePassword(password, st.users[i].password) ==>
            s.response == Redirect("/login", AuthError(WrongPassword)))
  {
    forall i | 0 <= i < |st.users| && st.users[i].username == username
      ensures LocalStrategy(st.users, username, password) ==
        (if ComparePassword(password, st.users[i].password) then Accept(st.users[i]) else Reject(WrongPassword))
    {
      LoginDecision(st.users, username, password, i);
    }
  }

  /** Where a successful login lands depends on the role string alone. */
  lemma LoginLandsByRole(st: State, username: string, password: string, isEmail: string -> bool)
    requires LocalStrategy(st.users, username, password).Accept?
    ensures var role := LocalStrategy(st.users, username, password).user.role;
      var s := Handle(st, PostLogin(username, password), isEmail);
      && s.response.Redirect? && s.response.flash == NoFlash
      && (s.response.location == "/admin" <==> role == "admin")
      && (s.response.location == "/jeng" <==> role == "jeng")
      && (s.response.location == "/" <==> role != "admin" && role != "jeng")
  {
  }

  /** After a login the session holds the id only, and every later request sees
      the store's current record for it: a role changed in the store decides the
      next `/admin` request, both as written and as intended. */
  lemma RoleChangeDecidesAdmin(st: State, i: nat, role: string, isEmail: string -> bool)
    requires Unique(st.users)
    requires i < |st.users|
    requires st.session == Holds(st.users[i].id)
    ensures var st' := st.(users := st.users[i := st.users[i].(role := role)]);
      Handle(st', GetAdmin, isEmail).response ==
        if role == "admin" then ServerError else Redirect("/", ErrorMsg(NotAdmin))
    ensures var st' := st.(users := st.users[i := st.users[i].(role := role)]);
      AdminIntended(st').response.Render? <==> role == "admin"
  {
    RoleChangeSeenOnNextRequest(st.users, i, role);
    var st' := st.(users := st.users[i := st.users[i].(role := role)]);
    AdminByRole(st', isEmail);
  }

  /** Logging out leaves the session without a user and goes to `/login`. */
  lemma LogoutEndsSession(st: State, isEmail: string -> bool)
    requires UserOf(st).Some?
    ensures var s := Handle(st, GetLogout, isEmail);
      s.state.session == Anonymous && UserOf(s.state).None? && s.response == Redirect("/login", SuccessMsg(LoggedOut))
  {
  }

  /** Every request keeps the store valid and leaves the session naming a saved user or nobody. */
  lemma HandleKeepsConsistent(st: State, req: Request, isEmail: string -> bool)
    requires Valid(st.users)
    ensures Consistent(Handle(st, req, isEmail).state)
  {
    var s := Handle(st, req, isEmail);
    var st0 := st.(session := Restore(st.users, st.session));
    match req {
      case PostRegister(f) =>
        if RegistrationAccepted(f, isEmail) {
          var c := Candidate(f.name, f.email, f.username, f.password, f.role);
          if RegisterUser(st.users, c).Success? {
            RegisterPreservesValid(st.users, c);
            if st0.session.Holds? {
              var id := st0.session.id;
              var j :| 0 <= j < |st.users| && st.users[j].id == id;
              assert s.state.users[j] == st.users[j];
            }
          }
        }
      case PostLogin(username, password) =>
      case _ =>
    }
  }

  /** Registering `a1` with password `p` and role `"user"` on an empty portal, then
      logging in: `p` lands on `/`, `q` is refused with "Wrong password". */
  lemma RegisterThenLogin(isEmail: string -> bool)
    requires isEmail("a@x.com")
    ensures var f := RegisterForm("A", "a@x.com", "a1", "p", "p", "user");
      var s1 := Handle(State([], [], [], Anonymous), PostRegister(f), isEmail);
      && s1.response == Redirect("/login", SuccessMsg(Registered))
      && Handle(s1.state, PostLogin("a1", "p"), isEmail).response == Redirect("/", NoFlash)
      && Handle(s1.state, PostLogin("a1", "q"), isEmail).response == Redirect("/login", AuthError(WrongPassword))
  {
    var st := State([], [], [], Anonymous);
    var f := RegisterForm("A", "a@x.com", "a1", "p", "p", "user");
    assert RegistrationAccepted(f, isEmail);
    ValidRegistrationAddsOne(st, f, isEmail);
    HandleKeepsConsistent(st, PostRegister(f), isEmail);
    var s1 := Handle(st, PostRegister(f), isEmail);
    var u := s1.state.users[0];
    LoginOutcomes(s1.state, "a1", "p", isEmail);
    LoginOutcomes(s1.state, "a1", "q", isEmail);
    assert ComparePassword("p", u.password);
    assert !ComparePassword("q", u.password);
  }
}

=== FILE: routes.dfy ===
/** The router: every handler of the portal as a pure transition from the
    server state and one request to the next state and the response.

    The state is the user collection, the complaint and complaint-mapping
    collections (append-only) and the one client's session. Every request first
    passes `passport.session()`, which restores `req.user` from the session id. */
module Routes {
  import opened Wrappers
  import opened UserStore
  import opened Validation
  import opened Auth

  const NotAuthenticated: string := "You are not Authorized to view this page"
  const NotAdmin: string := "You are not authorized to view this page"
  const LoggedOut: string := "You are logged out"
  const Assigned: string := "You have successfully assigned a complaint to Engineer"
  const Launched: string := "You have successfully launched a complaint"
  const Registered: string := "You are Successfully Registered and can Log in"

  /** A document of the Complaint model. */
  datatype Complaint = Complaint(name: string, email: string, contact: string, desc: string)

  /** A document of the ComplaintMapping model: a complaint handed to an engineer by name. */
  datatype Mapping = Mapping(complaintID: string, engineerName: string)

  datatype State = State(users: Store, complaints: seq<Complaint>, mappings: seq<Mapping>, session: Session)

  /** The flash message a redirect carries to the next page, by connect-flash key:
      `success_msg`, `error_msg`, and passport's own `error` set by `failureFlash`. */
  datatype Flash = NoFlash | SuccessMsg(text: string) | ErrorMsg(text: string) | AuthError(text: string)

  /** The templates, with the data the handlers pass to them. */
  datatype View =
    | IndexView
    | LoginView
    | RegisterView(errors: seq<Problem>)
    | AdminView(complaints: seq<Complaint>, engineers: seq<User>, errors: seq<Problem>)
    | JuniorView
    | ComplaintView(errors: seq<Problem>)

  /** `ServerError` stands for a handler that ends in an error instead of a page:
      the 500 answer, or a store failure thrown out of a callback. */
  datatype Response = Redirect(location: string, flash: Flash) | Render(view: View) | ServerError

  datatype Step = Step(state: State, response: Response)

  /** The requests the router answers. `stored` is the outcome of the Complaint
      or ComplaintMapping store call, whose models are outside this one. */
  datatype Request =
    | GetHome
    | GetLogin
    | GetRegister
    | GetLogout
    | GetAdmin
    | PostAssign(complaintID: string, engineerName: string, stored: bool)
    | GetJeng
    | GetComplaint
    | PostRegisterComplaint(name: string, email: string, contact: string, desc: string, stored: bool)
    | PostRegister(form: RegisterForm)
    | PostLogin(username: string, password: string)

  /** The routes wrapped in `ensureAuthenticated`. */
  predicate Protected(req: Request)
  {
    req.GetHome? || req.GetLogout? || req.GetAdmin? || req.GetJeng? || req.GetComplaint?
  }

  /** The requests that append a complaint mapping: both fields present and the write succeeding. */
  predicate AddsMapping(req: Request)
  {
    req.PostAssign? && req.complaintID != "" && req.engineerName != "" && req.stored
  }

  /** The requests that append a complaint: `contact` and `desc` present and the write succeeding. */
  predicate AddsComplaint(req: Request)
  {
    req.PostRegisterComplaint? && req.contact != "" && req.desc != "" && req.stored
  }

  /** `req.user` for a state. */
  function UserOf(st: State): Option<User>
  {
    CurrentUser(st.users, st.session)
  }

  /** `ensureAuthenticated` refusing: back to the login page with an error. */
  function Denied(st: State): (s: Step)
    ensures s.state == st && s.response.Redirect? && s.response.location == "/login"
    ensures s.response.flash.ErrorMsg?
  {
    Step(st, Redirect("/login", ErrorMsg(NotAuthenticated)))
  }

  /** A protected route that only renders a page. */
  function ProtectedPage(st: State, view: View): (s: Step)
    ensures s.state == st
    ensures s.response == Render(view) <==> UserOf(st).Some?
    ensures UserOf(st).None? ==> s == Denied(st)
  {
    if UserOf(st).None? then Denied(st) else Step(st, Render(view))
  }

  /** `GET /logout`. */
  function Logout(st: State): (s: Step)
    ensures s.state.users == st.users && s.state.complaints == st.complaints && s.state.mappings == st.mappings
    ensures UserOf(st).Some? ==> s.state.session == Anonymous && s.response == Redirect("/login", SuccessMsg(LoggedOut))
    ensures UserOf(st).None? ==> s == Denied(st)
    ensures UserOf(s.state).None?
  {
    if UserOf(st).None? then Denied(st)
    else Step(st.(session := Anonymous), Redirect("/login", SuccessMsg(LoggedOut)))
  }

  /** `GET /admin` as written: for the role `"admin"` the handler asks
      `User.getEngineer` for the engineers, which the User model does not define,
      so the request ends in an error and no page is rendered; any other user is
      sent to `/`. */
  function Admin(st: State): (s: Step)
    ensures s.state == st
    ensures !s.response.Render?
    ensures UserOf(st).Some? && UserOf(st).value.role == "admin" ==> s.response == ServerError
    ensures UserOf(st).Some? && UserOf(st).value.role != "admin" ==>
      s.response == Redirect("/", ErrorMsg(NotAdmin))
    ensures UserOf(st).None? ==> s == Denied(st)
  {
    match UserOf(st)
    case None => Denied(st)
    case Some(u) =>
      if u.role == "admin" then Step(st, ServerError)
      else Step(st, Redirect("/", ErrorMsg(NotAdmin)))
  }

  /** `GET /admin` as evidently intended: the dashboard, with every complaint and
      the users whose role is `"jeng"`, for the role `"admin"` only. */
  function AdminIntended(st: State): (s: Step)
    ensures s.state == st
    ensures s.response.Render? <==> UserOf(st).Some? && UserOf(st).value.role == "admin"
    ensures s.response.Render? ==>
      && s.response.view.AdminView?
      && s.response.view.complaints == st.complaints
      && s.response.view.errors == []
      && forall u :: u in s.response.view.engineers <==> u in st.users && u.role == "jeng"
    ensures UserOf(st).Some? && UserOf(st).value.role != "admin" ==>
      s.response == Redirect("/", ErrorMsg(NotAdmin))
    ensures UserOf(st).None? ==> s == Denied(st)
  {
    match UserOf(st)
    case None => Denied(st)
    case Some(u) =>
      if u.role == "admin" then Step(st, Render(AdminView(st.complaints, Engineers(st.users), [])))
      else Step(st, Redirect("/", ErrorMsg(NotAdmin)))
  }

  /** `POST /assign`: no session is consulted; a valid form appends one mapping. */
  function Assign(st: State, complaintID: string, engineerName: string, stored: bool): (s: Step)
    ensures s.state.users == st.users && s.state.complaints == st.complaints && s.state.session == st.session
    ensures complaintID != "" && engineerName != "" && stored ==>
      s.state.mappings == st.mappings + [Mapping(complaintID, engineerName)]
      && s.response == Redirect("/admin/admin", SuccessMsg(Assigned))
    ensures !(complaintID != "" && engineerName != "" && stored) ==> s.state == st
    ensures complaintID == "" || engineerName == "" ==>
      s.response.Render? && s.response.view.AdminView?
      && s.response.view.complaints == [] && s.response.view.engineers == []
      && |s.response.view.errors| > 0
    ensures complaintID != "" && engineerName != "" && !stored ==> s.response == ServerError
  {
    var errors := AssignErrors(complaintID, engineerName);
    if |errors| > 0 then Step(st, Render(AdminView([], [], errors)))
    else if !stored then Step(st, ServerError)
    else Step(st.(mappings := st.mappings + [Mapping(complaintID, engineerName)]),
              Redirect("/admin/admin", SuccessMsg(Assigned)))
  }

  /** `POST /registerComplaint`: no session is consulted; `contact` and `desc`
      must be non-empty, `name` and `email` are passed through as given. */
  function RegisterComplaint(st: State, name: string, email: string, contact: string, desc: string, stored: bool): (s: Step)
    ensures s.state.users == st.users && s.state.mappings == st.mappings && s.state.session == st.session
    ensures contact != "" && desc != "" && stored ==>
      s.state.complaints == st.complaints + [Complaint(name, email, contact, desc)]
      && s.response == Redirect("/", SuccessMsg(Launched))
    ensures !(contact != "" && desc != "" && stored) ==> s.state == st
    ensures contact == "" || desc == "" ==>
      s.response.Render? && s.response.view.ComplaintView? && |s.response.view.errors| > 0
    ensures contact != "" && desc != "" && !stored ==> s.response == ServerError
  {
    var errors := ComplaintErrors(contact, desc);
    if |errors| > 0 then Step(st, Render(ComplaintView(errors)))
    else if !stored then Step(st, ServerError)
    else Step(st.(complaints := st.complaints + [Complaint(name, email, contact, desc)]),
              Redirect("/", SuccessMsg(Launched)))
  }

  /** `POST /register`: validate, then `registerUser` the form's fields. */
  function Register(st: State, f: RegisterForm, isEmail: string -> bool): (s: Step)
    ensures s.state.complaints == st.complaints && s.state.mappings == st.mappings && s.state.session == st.session
    ensures !RegistrationAccepted(f, isEmail) ==>
      s.state == st && s.response.Render? && s.response.view.RegisterView? && |s.response.view.errors| > 0
    ensures RegistrationAccepted(f, isEmail) ==>
      var r := RegisterUser(st.users, Candidate(f.name, f.email, f.username, f.password, f.role));
      && (r.Success? ==> s.state.users == r.value.users && s.response == Redirect("/login", SuccessMsg(Registered)))
      && (r.Failure? ==> s.state == st && s.response == ServerError)
    ensures |s.state.users| == |st.users| || |s.state.users| == |st.users| + 1
  {
    var errors := RegisterErrors(f, isEmail);
    if |errors| > 0 then Step(st, Render(RegisterView(errors)))
    else match RegisterUser(st.users, Candidate(f.name, f.email, f.username, f.password, f.role))
      case Failure(_) => Step(st, ServerError)
      case Success(saved) => Step(st.(users := saved.users), Redirect("/login", SuccessMsg(Registered)))
  }

  /** `POST /login`: the local strategy decides; on success the session keeps the
      user's id and the browser goes to the role's landing page, on failure back to
      the login page with the strategy's message. */
  function Login(st: State, username: string, password: string): (s: Step)
    ensures s.state.users == st.users && s.state.complaints == st.complaints && s.state.mappings == st.mappings
    ensures var v := LocalStrategy(st.users, username, password);
      && (v.Accept? ==> s.state.session == Holds(v.user.id) && s.response == Redirect(LoginRedirect(v.user.role), NoFlash))
      && (v.Reject? ==> s.state == st && s.response == Redirect("/login", AuthError(v.message)))
  {
    match LocalStrategy(st.users, username, password)
    case Reject(message) => Step(st, Redirect("/login", AuthError(message)))
    case Accept(u) => Step(st.(session := Holds(u.id)), Redirect(LoginRedirect(u.role), NoFlash))
  }

  /** One request: `passport.session()` restores the session, then the route runs. */
  function Handle(st: State, req: Request, isEmail: string -> bool): (s: Step)
    ensures s.state.users == st.users || (req.PostRegister? && |s.state.users| == |st.users| + 1)
    ensures st.users <= s.state.users
    ensures s.state.complaints ==
      if AddsComplaint(req) then st.complaints + [Complaint(req.name, req.email, req.contact, req.desc)] else st.complaints
    ensures s.state.mappings ==
      if AddsMapping(req) then st.mappings + [Mapping(req.complaintID, req.engineerName)] else st.mappings
  {
    var st0 := st.(session := Restore(st.users, st.session));
    match req
    case GetHome => ProtectedPage(st0, IndexView)
    case GetLogin => Step(st0, Render(LoginView))
    case GetRegister => Step(st0, Render(RegisterView([])))
    case GetLogout => Logout(st0)
    case GetAdmin => Admin(st0)
    case PostAssign(complaintID, engineerName, stored) => Assign(st0, complaintID, engineerName, stored)
    case GetJeng => ProtectedPage(st0, JuniorView)
    case GetComplaint => ProtectedPage(st0, ComplaintView([]))
    case PostRegisterComplaint(name, email, contact, desc, stored) =>
      RegisterComplaint(st0, name, email, contact, desc, stored)
    case PostRegister(f) => Register(st0, f, isEmail)
    case PostLogin(username, password) => Login(st0, username, password)
  }
}

=== FILE: traces.dfy ===
/** Runs of several requests against one server state: what the collections
    hold afterwards and the invariants that survive every run. */
module Traces {
  import opened UserStore
  import opened Routes
  import opened RouteProperties

  /** The state after handling `reqs` in order. */
  function Run(st: State, reqs: seq<Request>, isEmail: string -> bool): (final: State)
    ensures st.users <= final.users
    ensures st.complaints <= final.complaints
    ensures st.mappings <= final.mappings
    decreases |reqs|
  {
    if |reqs| == 0 then st
    else Run(Handle(st, reqs[0], isEmail).state, reqs[1..], isEmail)
  }

  /** The mappings the requests would append, one per `AddsMapping` request, in order. */
  function NewMappings(reqs: seq<Request>): (ms: seq<Mapping>)
    ensures |ms| == 0 <==> forall i :: 0 <= i < |reqs| ==> !AddsMapping(reqs[i])
  {
    if |reqs| == 0 then []
    else
      (if AddsMapping(reqs[0]) then [Mapping(reqs[0].complaintID, reqs[0].engineerName)] else [])
      + NewMappings(reqs[1..])
  }

  /** The complaints the requests would append, one per `AddsComplaint` request, in order. */
  function NewComplaints(reqs: seq<Request>): (cs: seq<Complaint>)
    ensures |cs| == 0 <==> forall i :: 0 <= i < |reqs| ==> !AddsComplaint(reqs[i])
  {
    if |reqs| == 0 then []
    else
      (if AddsComplaint(reqs[0]) then [Complaint(reqs[0].name, reqs[0].email, reqs[0].contact, reqs[0].desc)] else [])
      + NewComplaints(reqs[1..])
  }

  /** One step of a run. */
  lemma RunStep(st: State, reqs: seq<Request>, isEmail: string -> bool)
    requires |reqs| > 0
    ensures Run(st, reqs, isEmail) == Run(Handle(st, reqs[0], isEmail).state, reqs[1..], isEmail)
  {
  }

  /** After a run the mappings are the old ones followed by one new record per
      accepted assignment, in request order, duplicates included. */
  lemma {:induction false} RunAppendsMappings(st: State, reqs: seq<Request>, isEmail: string -> bool)
    ensures Run(st, reqs, isEmail).mappings == st.mappings + NewMappings(reqs)
    decreases |reqs|
  {
    if |reqs| > 0 {
      var s := Handle(st, reqs[0], isEmail).state;
      var head := if AddsMapping(reqs[0]) then [Mapping(reqs[0].complaintID, reqs[0].engineerName)] else [];
      assert Run(st, reqs, isEmail) == Run(s, reqs[1..], isEmail) by {
        RunStep(st, reqs, isEmail);
      }
      assert Run(s, reqs[1..], isEmail).mappings == s.mappings + NewMappings(reqs[1..]) by {
        RunAppendsMappings(s, reqs[1..], isEmail);
      }
      assert s.mappings == st.mappings + head;
      assert NewMappings(reqs) == head + NewMappings(reqs[1..]);
      assert st.mappings + head + NewMappings(reqs[1..]) == st.mappings + (head + NewMappings(reqs[1..]));
    }
  }

  /** After a run the complaints are the old ones followed by one new record per
      accepted submission, in request order. */
  lemma {:induction false} RunAppendsComplaints(st: State, reqs: seq<Request>, isEmail: string -> bool)
    ensures Run(st, reqs, isEmail).complaints == st.complaints + NewComplaints(reqs)
    decreases |reqs|
  {
    if |reqs| > 0 {
      var s := Handle(st, reqs[0], isEmail).state;
      var head := if AddsComplaint(reqs[0]) then [Complaint(reqs[0].name, reqs[0].email, reqs[0].contact, reqs[0].desc)] else [];
      assert Run(st, reqs, isEmail) == Run(s, reqs[1..], isEmail) by {
        RunStep(st, reqs, isEmail);
      }
      assert Run(s, reqs[1..], isEmail).complaints == s.complaints + NewComplaints(reqs[1..]) by {
        RunAppendsComplaints(s, reqs[1..], isEmail);
      }
      assert s.complaints == st.complaints + head;
      assert NewComplaints(reqs) == head + NewComplaints(reqs[1..]);
      assert st.complaints + head + NewComplaints(reqs[1..]) == st.complaints + (head + NewComplaints(reqs[1..]));
    }
  }

  /** A run in which no assignment is accepted leaves the mappings as they were. */
  lemma NoAcceptedAssignKeepsMappings(st: State, reqs: seq<Request>, isEmail: string -> bool)
    requires forall k :: 0 <= k < |reqs| ==> !AddsMapping(reqs[k])
    ensures Run(st, reqs, isEmail).mappings == st.mappings
  {
    RunAppendsMappings(st, reqs, isEmail);
  }

  /** A run in which no complaint submission is accepted leaves the complaints as they were. */
  lemma NoAcceptedComplaintKeepsComplaints(st: State, reqs: seq<Request>, isEmail: string -> bool)
    requires forall k :: 0 <= k < |reqs| ==> !AddsComplaint(reqs[k])
    ensures Run(st, reqs, isEmail).complaints == st.complaints
  {
    RunAppendsComplaints(st, reqs, isEmail);
  }

  /** No run breaks the unique indexes, empties a required field, or leaves the
      session naming a user who is not stored. */
  lemma {:induction false} RunKeepsConsistent(st: State, reqs: seq<Request>, isEmail: string -> bool)
    requires Consistent(st)
    ensures Consistent(Run(st, reqs, isEmail))
    decreases |reqs|
  {
    if |reqs| > 0 {
      HandleKeepsConsistent(st, reqs[0], isEmail);
      RunKeepsConsistent(Handle(st, reqs[0], isEmail).state, reqs[1..], isEmail);
    }
  }

  /** A run of requests none of which registers leaves the users as they were,
      so no login, logout or page request ever creates or alters an account. */
  lemma {:induction false} OnlyRegistrationAddsUsers(st: State, reqs: seq<Request>, isEmail: string -> bool)
    requires forall k :: 0 <= k < |reqs| ==> !reqs[k].PostRegister?
    ensures Run(st, reqs, isEmail).users == st.users
    decreases |reqs|
  {
    if |reqs| > 0 {
      OnlyRegistrationAddsUsers(Handle(st, reqs[0], isEmail).state, reqs[1..], isEmail);
    }
  }
}

=== FILE: user_store.dfy ===
/** The User model: its schema constraints and the four store operations
    (`registerUser`, `getUserByUsername`, `getUserById`, `comparePassword`).
    The collection is a sequence of saved documents in insertion order, which
    is the order `findOne` scans. */
module UserStore {
  import opened Wrappers
  import Crypt

  /** A document `_id` (an ObjectId in the database). */
  type UserId = nat

  /** A saved user document; `password` holds the bcrypt digest. */
  datatype User = User(id: UserId, name: string, email: string, username: string, password: string, role: string)

  /** A `new User({...})` built from the request body, before it is saved.
      A field absent from the body is the empty string. */
  datatype Candidate = Candidate(name: string, email: string, username: string, password: string, role: string)

  /** Why a save failed: a `required` path is empty, or a unique index
      (`_id`, `email`, `username`) already holds the value. */
  datatype StoreError = ValidationError(paths: seq<string>) | DuplicateKey

  /** What `registerUser` hands to its callback on success, with the new collection. */
  datatype Saved = Saved(users: Store, user: User)

  type Store = seq<User>

  /** Every path of the schema is `required`; on a String path that rejects the empty string. */
  predicate HasRequired(u: User)
  {
    u.name != "" && u.email != "" && u.username != "" && u.password != "" && u.role != ""
  }

  /** The paths whose `required` validator fails, in schema order. */
  function MissingPaths(u: User): (paths: seq<string>)
    ensures |paths| == 0 <==> HasRequired(u)
    ensures "name" in paths <==> u.name == ""
    ensures "email" in paths <==> u.email == ""
    ensures "username" in paths <==> u.username == ""
    ensures "password" in paths <==> u.password == ""
    ensures "role" in paths <==> u.role == ""
    ensures forall p :: p in paths ==> p in ["name", "email", "username", "password", "role"]
  {
    (if u.name == "" then ["name"] else [])
    + (if u.email == "" then ["email"] else [])
    + (if u.username == "" then ["username"] else [])
    + (if u.password == "" then ["password"] else [])
    + (if u.role == "" then ["role"] else [])
  }

  /** The unique indexes: no two documents share an `_id`, an `email` or a `username`. */
  ghost predicate Unique(users: Store)
  {
    forall i, j :: 0 <= i < j < |users| ==>
      users[i].id != users[j].id && users[i].email != users[j].email && users[i].username != users[j].username
  }

  /** What every saved collection satisfies: unique keys and no empty required path. */
  ghost predicate Valid(users: Store)
  {
    Unique(users) && forall i :: 0 <= i < |users| ==> HasRequired(users[i])
  }

  /** Does `u` hit a unique index of the collection? */
  predicate Collides(users: Store, u: User)
  {
    exists i :: 0 <= i < |users| && (users[i].id == u.id || users[i].email == u.email || users[i].username == u.username)
  }

  /** An `_id` that no saved document has (the driver's fresh ObjectId). */
  function FreshId(users: Store): (id: UserId)
    ensures forall i :: 0 <= i < |users| ==> users[i].id < id
  {
    if |users| == 0 then 0
    else
      var rest := FreshId(users[..|users| - 1]);
      var last := users[|users| - 1].id;
      if rest <= last then last + 1 else rest
  }

  /** `newUser.save()`: schema validation first, then the unique indexes. */
  function Save(users: Store, u: User): (r: Result<Store, StoreError>)
    ensures r.Success? <==> HasRequired(u) && !Collides(users, u)
    ensures r.Success? ==> r.value == users + [u]
    ensures r.Failure? && !HasRequired(u) ==> r.error.ValidationError? && |r.error.paths| > 0
  {
    var missing := MissingPaths(u);
    if |missing| > 0 then Failure(ValidationError(missing))
    else if Collides(users, u) then Failure(DuplicateKey)
    else Success(users + [u])
  }

  /** `registerUser`: replace the password by its digest, then save. */
  function RegisterUser(users: Store, c: Candidate): (r: Result<Saved, StoreError>)
    ensures r.Success? <==>
      && c.name != "" && c.email != "" && c.username != "" && c.role != ""
      && forall i :: 0 <= i < |users| ==> users[i].email != c.email && users[i].username != c.username
    ensures r.Success? ==> r.value.users == users + [r.value.user]
    ensures r.Success? ==>
      && r.value.user.name == c.name && r.value.user.email == c.email
      && r.value.user.username == c.username && r.value.user.role == c.role
      && r.value.user.password == Crypt.Hash(c.password)
      && r.value.user.password != c.password
    ensures r.Success? ==> forall i :: 0 <= i < |users| ==> users[i].id != r.value.user.id
    ensures r.Failure? && (c.name == "" || c.email == "" || c.username == "" || c.role == "") ==>
      r.error.ValidationError?
  {
    var u := User(FreshId(users), c.name, c.email, c.username, Crypt.Hash(c.password), c.role);
    Crypt.HashNotPlaintext(c.password);
    match Save(users, u)
    case Success(users') => Success(Saved(users', u))
    case Failure(e) => Failure(e)
  }

  /** `getUserByUsername`: `findOne({username})`, the first match in collection order, or null. */
  function GetUserByUsername(users: Store, username: string): (r: Option<User>)
    ensures r.Some? ==> r.value in users && r.value.username == username
    ensures r.None? <==> forall i :: 0 <= i < |users| ==> users[i].username != username
  {
    if |users| == 0 then None
    else if users[0].username == username then Some(users[0])
    else GetUserByUsername(users[1..], username)
  }

  /** `getUserById`: `findById(id)`, or null. */
  function GetUserById(users: Store, id: UserId): (r: Option<User>)
    ensures r.Some? ==> r.value in users && r.value.id == id
    ensures r.None? <==> forall i :: 0 <= i < |users| ==> users[i].id != id
  {
    if |users| == 0 then None
    else if users[0].id == id then Some(users[0])
    else GetUserById(users[1..], id)
  }

  /** `comparePassword(candidate, digest)`: the bcrypt comparison. */
  predicate ComparePassword(candidate: string, digest: string)
  {
    Crypt.Compare(candidate, digest)
  }

  /** `comparePassword` against the digest `registerUser` stored for `q` accepts
      `q` and refuses every other candidate. */
  lemma ComparePasswordAcceptsOnlyOwn(p: string, q: string)
    ensures ComparePassword(p, Crypt.Hash(q)) <==> p == q
  {
    Crypt.CompareHash(p, q);
  }

  /** The users the admin assignment form evidently needs: those whose role is
      `"jeng"`, in collection order. The route asks `User.getEngineer` for this
      list, but the User model defines no such function. */
  function Engineers(users: Store): (r: seq<User>)
    ensures forall u :: u in r <==> u in users && u.role == "jeng"
  {
    if |users| == 0 then []
    else (if users[0].role == "jeng" then [users[0]] else []) + Engineers(users[1..])
  }

  /** In a collection with unique usernames, the lookup returns THE record with that username. */
  lemma UsernameLookupUnique(users: Store, i: nat)
    requires Unique(users)
    requires i < |users|
    ensures GetUserByUsername(users, users[i].username) == Some(users[i])
  {
  }

  /** In a collection with unique ids, the lookup returns THE record with that id. */
  lemma IdLookupUnique(users: Store, i: nat)
    requires Unique(users)
    requires i < |users|
    ensures GetUserById(users, users[i].id) == Some(users[i])
  {
  }

  /** A successful save keeps the collection valid. */
  lemma SavePreservesValid(users: Store, u: User)
    requires Valid(users)
    requires Save(users, u).Success?
    ensures Valid(Save(users, u).value)
  {
  }

  /** registerUser keeps the collection valid. */
  lemma RegisterPreservesValid(users: Store, c: Candidate)
    requires Valid(users)
    requires RegisterUser(users, c).Success?
    ensures Valid(RegisterUser(users, c).value.users)
  {
  }

  /** The stored digest matches the registered password and nothing else. */
  lemma StoredPasswordMatches(users: Store, c: Candidate, candidate: string)
    requires RegisterUser(users, c).Success?
    ensures ComparePassword(candidate, RegisterUser(users, c).value.user.password) <==> candidate == c.password
  {
    Crypt.CompareHash(candidate, c.password);
  }

  /** A second registration with a taken username or email fails and leaves the
      earlier record the only one holding that key. */
  lemma DuplicateRegistrationRejected(users: Store, c1: Candidate, c2: Candidate)
    requires Valid(users)
    requires RegisterUser(users, c1).Success?
    requires c2.username == c1.username || c2.email == c1.email
    ensures RegisterUser(RegisterUser(users, c1).value.users, c2).Failure?
    ensures c2.name != "" && c2.email != "" && c2.username != "" && c2.role != "" ==>
      RegisterUser(RegisterUser(users, c1).value.users, c2) == Failure(DuplicateKey)
    ensures var s := RegisterUser(users, c1).value;
      forall i :: 0 <= i < |s.users| && (s.users[i].username == c1.username || s.users[i].email == c1.email) ==>
        s.users[i] == s.user
  {
  }
}

=== FILE: validation.dfy ===
/** The express-validator chains that guard the POST routes. A chain whose
    check fails contributes one error to `validationResult`, in the order the
    chains are declared. `notEmpty` rejects the empty string, which is also
    what an absent body field becomes. */
module Validation {

  /** The failing check behind one entry of `errors.array()`. */
  datatype Problem =
    | NameMissing | EmailMissing | EmailMalformed | UsernameMissing
    | PasswordMissing | PasswordMismatch | RoleMissing
    | ComplaintIdMissing | EngineerMissing
    | ContactMissing | DescMissing

  /** The message each chain was declared with. */
  function Message(p: Problem): string
  {
    match p
    case NameMissing => "Name field is required"
    case EmailMissing => "Email field is required"
    case EmailMalformed => "Email must be a valid email address"
    case UsernameMissing => "Username field is required"
    case PasswordMissing => "Password field is required"
    case PasswordMismatch => "Passwords do not match"
    case RoleMissing => "Role option is required"
    case ComplaintIdMissing => "Complaint ID is required"
    case EngineerMissing => "Engineer name is required"
    case ContactMissing => "Contact field is required"
    case DescMissing => "Description field is required"
  }

  /** The body of `POST /register`. */
  datatype RegisterForm = RegisterForm(
    name: string, email: string, username: string,
    password: string, password2: string, role: string)

  /** One chain: no error when `ok`, its own error otherwise. */
  function Check(ok: bool, p: Problem): (errors: seq<Problem>)
    ensures ok <==> |errors| == 0
    ensures forall q :: q in errors <==> !ok && q == p
  {
    if ok then [] else [p]
  }

  /** The registration form passes every chain. `isEmail` is the validator's
      e-mail grammar, left uninterpreted. */
  predicate RegistrationAccepted(f: RegisterForm, isEmail: string -> bool)
  {
    && f.name != ""
    && f.email != ""
    && isEmail(f.email)
    && f.username != ""
    && f.password != ""
    && f.password2 == f.password
    && f.role != ""
  }

  /** Does the registration chain reporting `p` fail on the form? */
  predicate RegisterCheckFails(f: RegisterForm, isEmail: string -> bool, p: Problem)
  {
    match p
    case NameMissing => f.name == ""
    case EmailMissing => f.email == ""
    case EmailMalformed => !isEmail(f.email)
    case UsernameMissing => f.username == ""
    case PasswordMissing => f.password == ""
    case PasswordMismatch => f.password2 != f.password
    case RoleMissing => f.role == ""
    case _ => false
  }

  /** `validationResult(req)` for `POST /register`. */
  function RegisterErrors(f: RegisterForm, isEmail: string -> bool): (errors: seq<Problem>)
    ensures |errors| == 0 <==> RegistrationAccepted(f, isEmail)
    ensures forall p :: p in errors <==> RegisterCheckFails(f, isEmail, p)
  {
    Check(f.name != "", NameMissing)
    + Check(f.email != "", EmailMissing)
    + Check(isEmail(f.email), EmailMalformed)
    + Check(f.username != "", UsernameMissing)
    + Check(f.password != "", PasswordMissing)
    + Check(f.password2 == f.password, PasswordMismatch)
    + Check(f.role != "", RoleMissing)
  }

  /** `validationResult(req)` for `POST /assign`. */
  function AssignErrors(complaintID: string, engineerName: string): (errors: seq<Problem>)
    ensures |errors| == 0 <==> complaintID != "" && engineerName != ""
    ensures ComplaintIdMissing in errors <==> complaintID == ""
    ensures EngineerMissing in errors <==> engineerName == ""
    ensures forall p :: p in errors ==> p == ComplaintIdMissing || p == EngineerMissing
  {
    Check(complaintID != "", ComplaintIdMissing) + Check(engineerName != "", EngineerMissing)
  }

  /** `validationResult(req)` for `POST /registerComplaint`. */
  function ComplaintErrors(contact: string, desc: string): (errors: seq<Problem>)
    ensures |errors| == 0 <==> contact != "" && desc != ""
    ensures ContactMissing in errors <==> contact == ""
    ensures DescMissing in errors <==> desc == ""
    ensures forall p :: p in errors ==> p == ContactMissing || p == DescMissing
  {
    Check(contact != "", ContactMissing) + Check(desc != "", DescMissing)
  }
}

=== FILE: wrappers.dfy ===
/** Plain option and result types shared by the stores and the routes.
    A `Result` carries either a value or an error, never both: this is the
    model of the error-first callbacks `callback(err, null)` / `callback(null, value)`. */
module Wrappers {

  /** A value or nothing; `None` plays the part of a `null` document. */
  datatype Option<+T> = None | Some(value: T)

  /** Either a success value or an error value. */
  datatype Result<+R, +E> = Success(value: R) | Failure(error: E)
}
